=== FILE: README.md ===
# flack: request dispatch and response shaping, modelled in Dafny

`flack` binds a chat platform's three callback kinds to application handlers:
outgoing webhooks (routed by trigger word), slash commands (routed by command
name) and interactive actions (routed by the first action's name). Each
request is checked against a shared token, routed to the registered handler,
and the handler's return value is encoded as the platform's reply envelope
(`username`, `text`, `attachments`, `response_type`, `replace_original`).
An `IndirectResponse` also schedules a second message for the request's
response URL.

This project models that layer as pure functions:

- `values.dfy` (`Values`): the JSON values payloads and replies are made of, and Python truthiness.
- `text.dfy` (`Text`): Python slicing past the end, `str.strip()` and `repr()` of strings and ints.
- `errors.dfy` (`Errors`): the exceptions a dispatch can raise, their `repr` text, and the removal of `<`/`>`.
- `message.dfy` (`Message`): `Attachment`/`Action` whitelists and the closed sum of handler return values.
- `configuration.dfy` (`Configuration`): the token and default display name.
- `response.dfy` (`Response`): `_response`, `_indirect_response`, and the status verdict `_send_message` was written to give.
- `registry.dfy` (`Registry`): the trigger, command and action registries.
- `dispatch.dfy` (`Dispatch`): the three endpoints, with token validation outside error wrapping.

Handlers are an opaque parameter `run: (HandlerId, Args) -> Outcome`: a handler
either returns a value or raises an `Exception`, given by its `repr`. A request's
effect is an `Exchange`, which holds three things:

- the reply;
- the outbox of side-channel messages, in submission order, in place of the worker thread;
- the handler calls made, so "no handler runs" is a statement about them.

Payloads are already parsed: a form is a `map<string, string>` and an action
payload is a JSON object. The lookups are done in the source's evaluation
order, so the model raises the same exception first that the source does. In
particular, `response_url` is read only after the handler has returned.

## Model

| member | source | states |
|---|---|---|
| Text.Drop | flack/__init__.py:212-213 | slicing by the trigger word's length keeps the text after that many characters, and gives "" when the text is shorter |
| Text.Strip | flack/__init__.py:213 | the stripped text neither starts nor ends with whitespace, and it is empty exactly when the text was all whitespace |
| Text.StripIgnoresPadding | flack/__init__.py:213 | whitespace added around a text never changes the stripped result |
| Text.StripIdempotent | flack/__init__.py:213 | stripping twice equals stripping once; a text without surrounding whitespace is unchanged |
| Text.PyRepr | flack/__init__.py:92 | the repr of a string is enclosed in the quote Python picks: a double quote only when the text has a single quote and no double quote |
| Text.ReprRoundTrip | flack/__init__.py:92 | reading a string's repr back gives the original text, so the error text loses nothing before sanitizing |
| Errors.Sanitize | flack/__init__.py:92 | the sanitized text contains no `<` and no `>` and is no longer than the input |
| Errors.SanitizeKeepsOthers | flack/__init__.py:92 | every character other than `<` and `>` occurs in the sanitized text as often as in the input |
| Errors.SanitizeAppend | flack/__init__.py:92 | sanitizing distributes over concatenation, so the kept characters stay in their original order |
| Errors.SanitizeKeepsPlainText | flack/__init__.py:92 | a text without angle brackets is unchanged by sanitizing |
| Errors.SanitizeIdempotent | flack/__init__.py:92 | sanitizing twice equals sanitizing once |
| Errors.SanitizeScriptTag | flack/__init__.py:92 | a `<script>` tag inside otherwise bracket-free text comes out as `script`, with the text around it kept |
| Errors.SanitizeTag | flack/__init__.py:92 | a tag `<t>` inside bracket-free text loses exactly its two brackets; the tag name and the text around it are kept |
| Text.PyReprVerbatim | flack/__init__.py:92 | a text with nothing to escape appears unchanged in its repr, between single quotes, or between double quotes when it has a single quote and no double quote |
| Errors.ReprKeyMissing | flack/__init__.py:209-216 | a missing field whose name needs no escaping is reported as `KeyError('<name>')` |
| Errors.ReprUnregistered | flack/__init__.py:216-219 | an unregistered name that needs no escaping is reported as `AttributeError("Unregistered <kind>: '<name>'")`: the lookup's `KeyError` shows the name in single quotes, so the message is put in double quotes |
| Message.Make | flack/message.py:10-29 | an attachment or action built from keyword arguments keeps exactly the supplied keys in its class's whitelist, each with its value unchanged |
| Message.AsDict | flack/message.py:31-33 | `as_dict` never holds a key outside the class's whitelist |
| Message.MakeIdempotent | flack/message.py:28-29 | building an object of the same class from an existing `as_dict` gives the same mapping |
| Message.AttachmentDropsUnknownKeys | tests/test_message.py:5-7 | `Attachment(color, flower, image_url)` keeps exactly `color` and `image_url` |
| Message.ActionUsesOwnWhitelist | flack/message.py:36-44 | `Action(name, style, color)` keeps `name` and `style` and drops the attachment-only key `color` |
| Response.IndirectMessage | flack/__init__.py:132-149 | the side-channel message has exactly `text`, `attachments` and `response_type` "in_channel"; an attachment goes in as the single attachment with empty text, anything else as the text with no attachments |
| Response.Encode | flack/__init__.py:151-201 | the reply for each kind of return value. None gives the empty body. Any other value (usually a string) becomes the text, with no attachments and "ephemeral" iff private. An attachment gives its `as_dict` as the only attachment and empty text. A PrivateResponse gives "ephemeral" with its feedback as text. An IndirectResponse always schedules one message; its reply is empty for falsy feedback, the bare "in_channel" echo for `True`, and otherwise "ephemeral" with the feedback as text. The username is the given name, or the default when it is missing or empty |
| Response.ReplyShape | flack/__init__.py:163-201 | every non-empty reply is a full five-key envelope or the bare echo, and the echo comes exactly from an IndirectResponse whose feedback is `True` |
| Response.ReplyVisibility | flack/__init__.py:167-195 | a reply is "ephemeral" if and only if the call site asked for privacy on a plain value or an attachment, or the value is a PrivateResponse, or it is an IndirectResponse whose feedback is not `True` |
| Response.IndirectIndependence | flack/__init__.py:178-191 | for an IndirectResponse, the scheduled message does not depend on the feedback or the reply options, and the reply does not depend on `indirect` or the URL |
| Registry.RegisterTrigger | flack/__init__.py:288-305 | an empty trigger word is rejected. Otherwise the word maps to the handler, with the given display name or else the configured default. Other triggers and the other registries are unchanged |
| Registry.RegisterCommand | flack/__init__.py:307-318 | an empty command name is rejected; otherwise the name maps to the handler, and nothing else changes |
| Registry.RegisterAction | flack/__init__.py:320-331 | an empty action name is rejected; otherwise the name maps to the handler, and nothing else changes |
| Registry.LastRegistrationWins | flack/__init__.py:299-301 | two registrations under one key leave the same registry as the last one alone, in all three registries |
| Dispatch.FirstAction | flack/__init__.py:262-267 | only a non-empty list of actions yields an action, and it is the first. An empty container is "No action supplied". A non-empty object is an unregistered action `0`. Anything else is a type error |
| Dispatch.ActionHandler | flack/__init__.py:265-271 | an action resolves to a handler exactly when it is an object whose string `name` is registered, and then to that name's handler |
| Dispatch.Invoke | flack/__init__.py:225-286 | the handler call followed by `_response` at all three endpoints: webhooks (lines 225-226), commands (lines 246-254) and actions (lines 276-286). A routing failure runs no handler. A routed request runs exactly the routed handler once, and succeeds iff the handler returns and the response URL can be read |
| Dispatch.WrapErrors | flack/__init__.py:82-95 | any `Exception` raised in routing, the handler or encoding becomes a private, non-replacing reply under the default name. Its text is the exception's repr without angle brackets. No message is scheduled, and the handler calls already made are kept |
| Dispatch.DispatchWebhook | flack/__init__.py:203-226 | a wrong or missing token gives the empty body with no handler call. At most one handler runs, and only the one registered for the payload's trigger word |
| Dispatch.DispatchCommand | flack/__init__.py:228-254 | a wrong or missing token gives the empty body with no handler call. At most one handler runs, and only the one registered for the payload's command |
| Dispatch.DispatchAction | flack/__init__.py:256-286 | a wrong or missing token gives the empty body with no handler call. At most one handler runs, and only the one the first action names |
| Dispatch.WebhookRouting | flack/__init__.py:209-226 | a well-formed webhook calls its trigger's handler once, with the stripped text after the trigger word and the flat (user_id, user_name, team_id) caller. The result is encoded under the trigger's display name, and a raised exception becomes the error reply |
| Dispatch.WebhookTextFollowsTrigger | flack/__init__.py:212-213 | when the text starts with the trigger word, the handler sees the rest of the text, stripped |
| Dispatch.WebhookDisplayName | flack/__init__.py:294-301 | a trigger registered without a display name replies under the configured default; one registered with a non-empty name replies under it |
| Dispatch.WebhookRejects | flack/__init__.py:209-219 | an empty trigger word fails with "No trigger word supplied" and an unregistered one with "Unregistered trigger"; in both cases no handler runs |
| Dispatch.CommandRejects | flack/__init__.py:234-241 | an empty command fails with "No trigger word supplied" and an unregistered one with "Unregistered command"; in both cases no handler runs |
| Dispatch.CommandRouting | flack/__init__.py:234-254 | a well-formed command calls its handler once. It gets the text verbatim, the flat caller, and a channel whose team is `team_id`. The result is encoded with the request's response URL |
| Dispatch.CommandNeedsResponseUrlAfterHandler | flack/__init__.py:246-254 | a command without a response URL still runs its handler and then fails with a KeyError for `response_url` |
| Dispatch.CommandLastRegistrationWins | flack/__init__.py:307-318 | after two registrations under one command name, every request is answered as if only the last one had been made |
| Dispatch.ActionRouting | flack/__init__.py:262-286 | a well-formed action calls its handler once with the first action's value, the timestamp and callback id, the nested caller, and a channel whose team is the outer `team.id` |
| Dispatch.ActionIgnoresLaterActions | flack/__init__.py:265-268 | payloads that differ only after the first entry of `actions` get identical answers |
| Dispatch.ActionRejects | flack/__init__.py:262-271 | an empty `actions` list fails with "No action supplied" and an unregistered first name with "Unregistered action"; in both cases no handler runs |
| Dispatch.FailuresAreSanitized | flack/__init__.py:90-93 | the error reply is private and non-replacing. Its text has no angle brackets, and every other character of the exception's repr occurs in it equally often |

## Left out

- Flask plumbing is not modelled. This covers `init_app`, blueprint and URL-prefix registration, config defaults (`FLACK_URL_PREFIX`, `FLACK_DEFAULT_NAME`), the check for an empty `FLACK_TOKEN`, and `jsonify`. The configuration is a given `Config` value and replies are maps.
- Form and JSON extraction (`get_form_data`, `get_json_data`) is not modelled: payloads arrive already parsed.
- The decorators `validate_token` and `wrap_errors` call the wrapped function without `self` (flack/__init__.py:71-77, 86-88), so stacking them as written cannot work. The model follows the intended order instead: the token check first, then error wrapping around routing, the handler and encoding.
- Side-channel delivery is replaced by the returned outbox. The outbox holds what `_indirect_response` submits to the worker, and it follows the intended delivery. As written, no message reaches the response URL: `_send_message` is a module-level function declared with three parameters `(self, url, message)` (flack/__init__.py:28), but the submission passes only `url` and the message (flack/__init__.py:149). The worker therefore raises a `TypeError` before its one-second delay. The error is kept in a future nobody reads, so nothing is posted or logged. The single worker thread, the delay and the HTTP POST are concurrency and network I/O and are not modelled.
- Response.Delivered: it states the 404 verdict `_send_message` would give on a completed post. As written, that verdict is never reached, for the reason in the previous line.
- Registries are an explicit value, not the class-level dictionaries shared by every `Flack` instance.
- Dispatch.WrapErrors: only exceptions derived from `Exception` are caught (flack/__init__.py:90). A handler raising `SystemExit`, `KeyboardInterrupt` or `GeneratorExit` escapes error wrapping and the framework answers instead; such raises are not modelled, and `Outcome.Raised` stands for an `Exception` only.
- Logging is not modelled. Handler bodies are opaque.
- JSON numbers are integers: floats are not modelled.
- Message.HandlerResult: every return value other than None, an attachment or a response tuple is a JSON value (`Plain`), sent as the reply's text. Values `jsonify` cannot serialise are not modelled. For example, an `IndirectResponse` whose feedback is an `Attachment` makes `jsonify` raise inside error wrapping, after the indirect message was already submitted.
- Dispatch.ActionHandler, Dispatch.FirstAction, Dispatch.Nested: when a JSON field has the wrong shape, Python raises a `TypeError`. Examples: a list-valued action `name` (`ActionHandler`), a non-empty string as `actions` (`FirstAction`), or a `user` that is not an object (`Nested`). The model's `WrongType` records the field name instead of Python's wording of that message.
- Text.PyRepr: it escapes backslash, newline, carriage return, tab, the enclosing quote, and the non-printable characters up to U+00FF. Non-printable characters above U+00FF, which Python also escapes, are written unchanged.
- Attachments are unordered maps, so key order in `as_dict` is not modelled; JSON readers ignore it.
- The superseded single-module `flack.py`, OAuth, and `flack/exceptions.py` (declarations only) are not part of this model.
- tests/test_blueprint.py expects handler arguments that the code does not pass (`trigger`, `message_ts`). The model follows the code: a command handler gets `text`, `user` and `channel`; an action handler gets `value`, `ts`, `callback`, `user` and `channel`.
- A webhook has no response URL, so an `IndirectResponse` from a trigger handler schedules its message with a null URL, exactly as the source passes `None`.
- An empty command name fails with the message "No trigger word supplied", as the source raises it (flack/__init__.py:234-235).

=== FILE: configuration.dfy ===
/** The application configuration the dispatcher reads. */
module Configuration {

  /** `FLACK_TOKEN`, the shared secret every payload must carry, and
      `FLACK_DEFAULT_NAME`, the display name used when a reply names none. */
  datatype Config = Config(token: string, defaultName: string)
}

=== FILE: dispatch.dfy ===
/** The three request endpoints. Each one checks the shared token, then reads
    and validates its payload, looks up the handler by its routing key, calls
    it with normalised arguments and encodes what it returns. A token
    mismatch ends the request with an empty body before anything else runs;
    any `Exception` raised after that is turned into a private reply
    carrying the exception's text with angle brackets removed. */
module Dispatch {
  import opened Values
  import opened Text
  import opened Errors
  import opened Message
  import opened Configuration
  import opened Response
  import opened Registry

  /** A form-encoded payload (webhook and command). */
  type Form = map<string, string>

  /** A decoded JSON payload (action). */
  type Payload = map<string, Value>

  /** Who made the request. */
  datatype Caller = Caller(id: Value, name: Value, team: Value)

  /** Where the request was made. */
  datatype Channel = Channel(id: Value, name: Value, team: Value)

  /** The keyword arguments a handler is called with. */
  datatype Args =
    | TriggerArgs(text: string, user: Caller)
    | CommandArgs(text: string, user: Caller, channel: Channel)
    | ActionArgs(value: Value, ts: Value, callback: Value, user: Caller, channel: Channel)

  /** What running a handler gives: its return value, or the `repr` of the
      `Exception` it raised. Exceptions outside `Exception` (`SystemExit`,
      `KeyboardInterrupt`) escape error wrapping and are not modelled. */
  datatype Outcome = Returned(result: HandlerResult) | Raised(repr: string)

  datatype Invocation = Invocation(handler: HandlerId, args: Args)

  /** The observable effect of one request: the reply, the side-channel
      messages scheduled, and the handler calls made. */
  datatype Exchange = Exchange(reply: Reply, outbox: seq<Outgoing>, calls: seq<Invocation>)

  /** A request that got past the token check: it either produced an
      exchange or raised a failure, possibly after a handler ran. */
  datatype Attempt = Done(exchange: Exchange) | Failed(made: seq<Invocation>, failure: Fault)

  /** The handler a payload routes to, its arguments, and the display name
      for the reply (webhooks only). */
  datatype Route = Route(handler: HandlerId, args: Args, user: Option<string>)

  /** The answer to a request with a wrong token: empty body, nothing else. */
  const Silent: Exchange := Exchange(Empty, [], [])

  // ---------------------------------------------------------------------
  // Reading payloads

  /** `data[key]`: a missing key raises `KeyError(key)`. */
  function Get<V>(data: map<string, V>, key: string): (r: Result<V>)
    ensures key in data <==> r.Success?
    ensures r.Success? ==> r.value == data[key]
    ensures r.Failure? ==> r.error == KeyMissing(key)
  {
    if key in data then Success(data[key]) else Failure(KeyMissing(key))
  }

  /** `data[outer][key]` on a JSON object; indexing anything other than an
      object raises a `TypeError`. */
  function Nested(data: Payload, outer: string, key: string): (r: Result<Value>)
    ensures r.Success? <==> outer in data && data[outer].Obj? && key in data[outer].fields
    ensures r.Success? ==> r.value == data[outer].fields[key]
  {
    var inner :- Get(data, outer);
    if inner.Obj? then Get(inner.fields, key) else Failure(WrongType(outer))
  }

  /** `data.get("token") == FLACK_TOKEN` for a form. */
  predicate FormTokenValid(cfg: Config, data: Form)
  {
    "token" in data && data["token"] == cfg.token
  }

  /** `data.get("token") == FLACK_TOKEN` for a JSON payload. */
  predicate PayloadTokenValid(cfg: Config, data: Payload)
  {
    "token" in data && data["token"] == Str(cfg.token)
  }

  // ---------------------------------------------------------------------
  // Routing

  /** The webhook payload's route: the trigger word must be non-empty, the
      text loses as many leading characters as the trigger word has and is
      then stripped, and the caller comes from the flat `user_*`/`team_id`
      fields. */
  function WebhookRoute(reg: Registry, data: Form): Result<Route>
  {
    var word :- Get(data, "trigger_word");
    if word == "" then Failure(NoTriggerWord)
    else
      var text :- Get(data, "text");
      var stripped := Strip(Drop(text, |word|));
      if word !in reg.triggers then Failure(Unregistered("trigger", PyRepr(word)))
      else
        var entry := reg.triggers[word];
        var id :- Get(data, "user_id");
        var name :- Get(data, "user_name");
        var team :- Get(data, "team_id");
        Success(Route(entry.handler, TriggerArgs(stripped, Caller(Str(id), Str(name), Str(team))),
                      Some(entry.user)))
  }

  /** The command payload's route: the command must be non-empty, the text is
      passed verbatim, and caller and channel come from flat fields, the
      channel's team being `team_id`. */
  function CommandRoute(reg: Registry, data: Form): Result<Route>
  {
    var command :- Get(data, "command");
    if command == "" then Failure(NoTriggerWord)
    else if command !in reg.commands then Failure(Unregistered("command", PyRepr(command)))
    else
      var text :- Get(data, "text");
      var uid :- Get(data, "user_id");
      var uname :- Get(data, "user_name");
      var team :- Get(data, "team_id");
      var cid :- Get(data, "channel_id");
      var cname :- Get(data, "channel_name");
      Success(Route(reg.commands[command],
                    CommandArgs(text, Caller(Str(uid), Str(uname), Str(team)),
                                Channel(Str(cid), Str(cname), Str(team))),
                    None))
  }

  /** `actions[0]`: the first entry of the `actions` field. An empty
      container is `No action supplied`; a non-empty object has no key `0`,
      which the lookup reports as an unregistered action `0`; a string's
      first character or a scalar cannot be indexed further. */
  function FirstAction(actions: Value): (r: Result<Value>)
    ensures actions.List? && |actions.items| > 0 <==> r.Success?
    ensures r.Success? ==> r.value == actions.items[0]
    ensures (actions == List([]) || actions == Str("") || actions == Obj(map[])) ==> r == Failure(NoAction)
    ensures actions.Obj? && |actions.fields| > 0 ==> r == Failure(Unregistered("action", "0"))
    ensures (actions.Str? && |actions.s| > 0) || actions.Null? || actions.Bool? || actions.Num? ==>
              r == Failure(WrongType("actions"))
  {
    match actions
    case List(items) => if |items| == 0 then Failure(NoAction) else Success(items[0])
    case Str(s) => if |s| == 0 then Failure(NoAction) else Failure(WrongType("actions"))
    case Obj(m) => if |m| == 0 then Failure(NoAction) else Failure(Unregistered("action", "0"))
    case _ => Failure(WrongType("actions"))
  }

  /** `self.actions[action["name"]]` inside the `try` that turns a
      `KeyError` into an unregistered action, reported with `str()` of the
      missing key: a string in quotes, `None`, `True`, `False` or a number.
      A list or object name cannot be hashed and raises a `TypeError`. */
  function ActionHandler(reg: Registry, action: Value): (r: Result<HandlerId>)
    ensures r.Success? <==>
              action.Obj? && "name" in action.fields && action.fields["name"].Str?
              && action.fields["name"].s in reg.actions
    ensures r.Success? ==> r.value == reg.actions[action.fields["name"].s]
  {
    if !action.Obj? then Failure(WrongType("actions"))
    else if "name" !in action.fields then Failure(Unregistered("action", PyRepr("name")))
    else
      match action.fields["name"]
      case Str(n) => if n in reg.actions then Success(reg.actions[n])
                     else Failure(Unregistered("action", PyRepr(n)))
      case Null => Failure(Unregistered("action", "None"))
      case Bool(b) => Failure(Unregistered("action", if b then "True" else "False"))
      case Num(n) => Failure(Unregistered("action", IntToString(n)))
      case List(_) => Failure(WrongType("name"))
      case Obj(_) => Failure(WrongType("name"))
  }

  /** The action payload's route: only `actions[0]` is consulted; caller
      and channel come from the nested `user` and `channel` objects, the
      channel's team from the outer `team` object. */
  function ActionRoute(reg: Registry, data: Payload): Result<Route>
  {
    var actions :- Get(data, "actions");
    var action :- FirstAction(actions);
    var handler :- ActionHandler(reg, action);
    var value :- Get(action.fields, "value");
    var ts :- Get(data, "message_ts");
    var callback :- Get(data, "callback_id");
    var uid :- Nested(data, "user", "id");
    var uname :- Nested(data, "user", "username");
    var uteam :- Nested(data, "user", "team_id");
    var cid :- Nested(data, "channel", "id");
    var cname :- Nested(data, "channel", "name");
    var team :- Nested(data, "team", "id");
    Success(Route(handler, ActionArgs(value, ts, callback, Caller(uid, uname, uteam),
                                      Channel(cid, cname, team)), None))
  }

  // ---------------------------------------------------------------------
  // Running and the two policies

  /** Runs the routed handler, then reads the response URL (`url`, which
      the source looks up only after the handler returns) and encodes the
      result as a public, non-replacing reply. */
  function Invoke(cfg: Config, run: (HandlerId, Args) -> Outcome, route: Result<Route>,
                  url: Result<Value>): (a: Attempt)
    ensures route.Failure? ==> a == Failed([], route.error)
    ensures route.Success? ==>
              var inv := Invocation(route.value.handler, route.value.args);
              (a.Done? ==> a.exchange.calls == [inv]) && (a.Failed? ==> a.made == [inv])
    ensures a.Done? <==>
              route.Success? && run(route.value.handler, route.value.args).Returned? && url.Success?
  {
    match route
    case Failure(f) => Failed([], f)
    case Success(rt) =>
      var inv := Invocation(rt.handler, rt.args);
      match run(rt.handler, rt.args)
      case Raised(repr) => Failed([inv], HandlerRaised(repr))
      case Returned(result) =>
        match url
        case Failure(f) => Failed([inv], f)
        case Success(u) =>
          var e := Encode(cfg, result, u, rt.user, false, false);
          Done(Exchange(e.reply, e.outbox, [inv]))
  }

  /** What the error-wrapping policy answers for a failure. */
  function ErrorReply(cfg: Config, f: Fault): Reply
  {
    Encode(cfg, Plain(Str(Sanitize(Repr(f)))), Null, None, true, false).reply
  }

  /** The error-wrapping policy: any `Exception` becomes a private,
      non-replacing reply under the default name whose text is the
      exception's `repr` without angle brackets; no message is scheduled. */
  function WrapErrors(cfg: Config, a: Attempt): (x: Exchange)
    ensures a.Done? ==> x == a.exchange
    ensures a.Failed? ==>
              && x.calls == a.made
              && x.outbox == []
              && IsEnvelope(x.reply, cfg.defaultName, Str(Sanitize(Repr(a.failure))), [], "ephemeral", false)
  {
    match a
    case Done(x) => x
    case Failed(made, f) => Exchange(ErrorReply(cfg, f), [], made)
  }

  // ---------------------------------------------------------------------
  // Endpoints

  /** `POST /webhook`. */
  function DispatchWebhook(cfg: Config, reg: Registry, run: (HandlerId, Args) -> Outcome,
                           data: Form): (x: Exchange)
    ensures !FormTokenValid(cfg, data) ==> x == Silent
    ensures |x.calls| <= 1
    ensures x.calls != [] ==>
              && FormTokenValid(cfg, data)
              && "trigger_word" in data
              && data["trigger_word"] in reg.triggers
              && x.calls[0].handler == reg.triggers[data["trigger_word"]].handler
  {
    if !FormTokenValid(cfg, data) then Silent
    else WrapErrors(cfg, Invoke(cfg, run, WebhookRoute(reg, data), Success(Null)))
  }

  /** `POST /command`. */
  function DispatchCommand(cfg: Config, reg: Registry, run: (HandlerId, Args) -> Outcome,
                           data: Form): (x: Exchange)
    ensures !FormTokenValid(cfg, data) ==> x == Silent
    ensures |x.calls| <= 1
    ensures x.calls != [] ==>
              && FormTokenValid(cfg, data)
              && "command" in data
              && data["command"] in reg.commands
              && x.calls[0].handler == reg.commands[data["command"]]
  {
    if !FormTokenValid(cfg, data) then Silent
    else
      var url := if "response_url" in data then Success(Str(data["response_url"]))
                 else Failure(KeyMissing("response_url"));
      WrapErrors(cfg, Invoke(cfg, run, CommandRoute(reg, data), url))
  }

  /** `POST /action`. */
  function DispatchAction(cfg: Config, reg: Registry, run: (HandlerId, Args) -> Outcome,
                          data: Payload): (x: Exchange)
    ensures !PayloadTokenValid(cfg, data) ==> x == Silent
    ensures |x.calls| <= 1
    ensures x.calls != [] ==>
              && PayloadTokenValid(cfg, data)
              && "actions" in data && data["actions"].List? && |data["actions"].items| > 0
              && ActionHandler(reg, data["actions"].items[0]).Success?
              && x.calls[0].handler == ActionHandler(reg, data["actions"].items[0]).value
  {
    if !PayloadTokenValid(cfg, data) then Silent
    else WrapErrors(cfg, Invoke(cfg, run, ActionRoute(reg, data), Get(data, "response_url")))
  }

  // ---------------------------------------------------------------------
  // Properties of the endpoints

  /** A well-formed webhook for a registered trigger word calls exactly that
      trigger's handler, once, with the text after the trigger word stripped
      and the flat caller identity; the handler's value is encoded under the
      trigger's display name, and an exception it raises becomes the error
      reply. */
  lemma WebhookRouting(cfg: Config, reg: Registry, run: (HandlerId, Args) -> Outcome, data: Form)
    requires FormTokenValid(cfg, data)
    requires "trigger_word" in data && data["trigger_word"] != "" && data["trigger_word"] in reg.triggers
    requires "text" in data && "user_id" in data && "user_name" in data && "team_id" in data
    ensures var word := data["trigger_word"];
            var entry := reg.triggers[word];
            var args := TriggerArgs(Strip(Drop(data["text"], |word|)),
                                    Caller(Str(data["user_id"]), Str(data["user_name"]), Str(data["team_id"])));
            var x := DispatchWebhook(cfg, reg, run, data);
            && x.calls == [Invocation(entry.handler, args)]
            && (run(entry.handler, args).Returned? ==>
                  var e := Encode(cfg, run(entry.handler, args).result, Null, Some(entry.user), false, false);
                  x.reply == e.reply && x.outbox == e.outbox)
            && (run(entry.handler, args).Raised? ==>
                  x.reply == ErrorReply(cfg, HandlerRaised(run(entry.handler, args).repr)) && x.outbox == [])
  {
    var word := data["trigger_word"];
    var entry := reg.triggers[word];
    var args := TriggerArgs(Strip(Drop(data["text"], |word|)),
                            Caller(Str(data["user_id"]), Str(data["user_name"]), Str(data["team_id"])));
    assert WebhookRoute(reg, data) == Success(Route(entry.handler, args, Some(entry.user)));
  }

  /** When the text starts with the trigger word, the handler sees the rest
      of the text with its surrounding whitespace removed. */
  lemma WebhookTextFollowsTrigger(cfg: Config, reg: Registry, run: (HandlerId, Args) -> Outcome,
                                  data: Form, rest: string)
    requires FormTokenValid(cfg, data)
    requires "trigger_word" in data && data["trigger_word"] != "" && data["trigger_word"] in reg.triggers
    requires "text" in data && data["text"] == data["trigger_word"] + rest
    requires "user_id" in data && "user_name" in data && "team_id" in data
    ensures DispatchWebhook(cfg, reg, run, data).calls[0].args.text == Strip(rest)
  {
    var word := data["trigger_word"];
    assert Drop(word + rest, |word|) == rest;
  }

  /** A trigger registered without a display name replies under the
      configured default name; one registered with a non-empty name replies
      under that name. */
  lemma WebhookDisplayName(cfg: Config, reg: Registry, run: (HandlerId, Args) -> Outcome,
                           data: Form, asUser: Option<string>, h: HandlerId, s: string)
    requires FormTokenValid(cfg, data)
    requires "trigger_word" in data && data["trigger_word"] != ""
    requires "text" in data && "user_id" in data && "user_name" in data && "team_id" in data
    requires asUser.None? || asUser.value != ""
    requires forall args :: run(h, args) == Returned(Plain(Str(s)))
    ensures var reg' := RegisterTrigger(cfg, reg, data["trigger_word"], asUser, h).value;
            IsEnvelope(DispatchWebhook(cfg, reg', run, data).reply,
                       if asUser.Some? then asUser.value else cfg.defaultName,
                       Str(s), [], "in_channel", false)
  {
    var word := data["trigger_word"];
    var reg' := RegisterTrigger(cfg, reg, word, asUser, h).value;
    var entry := reg'.triggers[word];
    assert entry.handler == h;
    WebhookRouting(cfg, reg', run, data);
    var args := TriggerArgs(Strip(Drop(data["text"], |word|)),
                            Caller(Str(data["user_id"]), Str(data["user_name"]), Str(data["team_id"])));
    assert run(h, args) == Returned(Plain(Str(s)));
    assert DisplayName(cfg, Some(entry.user)) == if asUser.Some? then asUser.value else cfg.defaultName;
  }

  /** An empty trigger word and an unregistered one are failures reported
      to the caller; no handler runs. */
  lemma WebhookRejects(cfg: Config, reg: Registry, run: (HandlerId, Args) -> Outcome, data: Form)
    requires FormTokenValid(cfg, data)
    requires "trigger_word" in data && "text" in data
    ensures var word := data["trigger_word"];
            var x := DispatchWebhook(cfg, reg, run, data);
            && (word == "" ==> x == Exchange(ErrorReply(cfg, NoTriggerWord), [], []))
            && (word != "" && word !in reg.triggers ==>
                  x == Exchange(ErrorReply(cfg, Unregistered("trigger", PyRepr(word))), [], []))
  {
  }

  /** A command with an empty name, or one nobody registered, is answered
      with the corresponding error and calls no handler. */
  lemma CommandRejects(cfg: Config, reg: Registry, run: (HandlerId, Args) -> Outcome, data: Form)
    requires FormTokenValid(cfg, data)
    requires "command" in data
    ensures var command := data["command"];
            var x := DispatchCommand(cfg, reg, run, data);
            && (command == "" ==> x == Exchange(ErrorReply(cfg, NoTriggerWord), [], []))
            && (command != "" && command !in reg.commands ==>
                  x == Exchange(ErrorReply(cfg, Unregistered("command", PyRepr(command))), [], []))
  {
  }

  /** A well-formed command for a registered name calls exactly that
      handler, once, with the text verbatim and the flat caller and channel
      identity; what it returns is encoded with the request's response URL. */
  lemma CommandRouting(cfg: Config, reg: Registry, run: (HandlerId, Args) -> Outcome, data: Form)
    requires FormTokenValid(cfg, data)
    requires "command" in data && data["command"] != "" && data["command"] in reg.commands
    requires "text" in data && "user_id" in data && "user_name" in data && "team_id" in data
    requires "channel_id" in data && "channel_name" in data && "response_url" in data
    ensures var handler := reg.commands[data["command"]];
            var args := CommandArgs(data["text"],
                                    Caller(Str(data["user_id"]), Str(data["user_name"]), Str(data["team_id"])),
                                    Channel(Str(data["channel_id"]), Str(data["channel_name"]), Str(data["team_id"])));
            var x := DispatchCommand(cfg, reg, run, data);
            && x.calls == [Invocation(handler, args)]
            && (run(handler, args).Returned? ==>
                  var e := Encode(cfg, run(handler, args).result, Str(data["response_url"]), None, false, false);
                  x.reply == e.reply && x.outbox == e.outbox)
  {
  }

  /** The response URL is read only after the handler has run: a command
      without one still calls its handler, and then fails. */
  lemma CommandNeedsResponseUrlAfterHandler(cfg: Config, reg: Registry,
                                            run: (HandlerId, Args) -> Outcome, data: Form)
    requires FormTokenValid(cfg, data)
    requires "command" in data && data["command"] != "" && data["command"] in reg.commands
    requires "text" in data && "user_id" in data && "user_name" in data && "team_id" in data
    requires "channel_id" in data && "channel_name" in data && "response_url" !in data
    ensures var x := DispatchCommand(cfg, reg, run, data);
            && |x.calls| == 1
            && x.outbox == []
            && ((forall args :: run(reg.commands[data["command"]], args).Returned?) ==>
                  x.reply == ErrorReply(cfg, KeyMissing("response_url")))
  {
  }

  /** After two registrations under one command name, requests route to
      the handler registered last. */
  lemma CommandLastRegistrationWins(cfg: Config, reg: Registry, run: (HandlerId, Args) -> Outcome,
                                    data: Form, name: string, h1: HandlerId, h2: HandlerId)
    requires name != ""
    ensures DispatchCommand(cfg, RegisterCommand(RegisterCommand(reg, name, h1).value, name, h2).value, run, data)
            == DispatchCommand(cfg, RegisterCommand(reg, name, h2).value, run, data)
  {
    LastRegistrationWins(cfg, reg, name, None, None, h1, h2);
  }

  /** A well-formed action for a registered name calls exactly that
      handler, once, with the first action's value, the message timestamp,
      the callback id, the nested caller identity and the channel, whose
      team is the outer `team.id`. */
  lemma ActionRouting(cfg: Config, reg: Registry, run: (HandlerId, Args) -> Outcome, data: Payload,
                      first: map<string, Value>, rest: seq<Value>, name: string)
    requires PayloadTokenValid(cfg, data)
    requires "actions" in data && data["actions"] == List([Obj(first)] + rest)
    requires "name" in first && first["name"] == Str(name) && name in reg.actions && "value" in first
    requires "message_ts" in data && "callback_id" in data && "response_url" in data
    requires "user" in data && data["user"].Obj?
    requires "id" in data["user"].fields && "username" in data["user"].fields && "team_id" in data["user"].fields
    requires "channel" in data && data["channel"].Obj?
    requires "id" in data["channel"].fields && "name" in data["channel"].fields
    requires "team" in data && data["team"].Obj? && "id" in data["team"].fields
    ensures var user := data["user"].fields;
            var args := ActionArgs(first["value"], data["message_ts"], data["callback_id"],
                                   Caller(user["id"], user["username"], user["team_id"]),
                                   Channel(data["channel"].fields["id"], data["channel"].fields["name"],
                                           data["team"].fields["id"]));
            var x := DispatchAction(cfg, reg, run, data);
            && x.calls == [Invocation(reg.actions[name], args)]
            && (run(reg.actions[name], args).Returned? ==>
                  var e := Encode(cfg, run(reg.actions[name], args).result, data["response_url"], None, false, false);
                  x.reply == e.reply && x.outbox == e.outbox)
  {
  }

  /** Only the first entry of `actions` matters: payloads that differ only
      in the later entries get the same answer. */
  lemma ActionIgnoresLaterActions(cfg: Config, reg: Registry, run: (HandlerId, Args) -> Outcome,
                                  data: Payload, first: Value, rest1: seq<Value>, rest2: seq<Value>)
    requires "actions" in data && data["actions"] == List([first] + rest1)
    ensures DispatchAction(cfg, reg, run, data)
            == DispatchAction(cfg, reg, run, data["actions" := List([first] + rest2)])
  {
    var data' := data["actions" := List([first] + rest2)];
    assert PayloadTokenValid(cfg, data) <==> PayloadTokenValid(cfg, data');
    assert FirstAction(data["actions"]) == FirstAction(data'["actions"]);
    assert forall k :: k != "actions" ==> Get(data, k) == Get(data', k);
    assert ActionRoute(reg, data) == ActionRoute(reg, data');
  }

  /** An empty `actions` list, and a first action whose name is not
      registered, are failures reported to the caller; no handler runs. */
  lemma ActionRejects(cfg: Config, reg: Registry, run: (HandlerId, Args) -> Outcome, data: Payload)
    requires PayloadTokenValid(cfg, data)
    requires "actions" in data && data["actions"].List?
    ensures var items := data["actions"].items;
            var x := DispatchAction(cfg, reg, run, data);
            && (items == [] ==> x == Exchange(ErrorReply(cfg, NoAction), [], []))
            && (items != [] && items[0].Obj? && "name" in items[0].fields
                && items[0].fields["name"].Str? && items[0].fields["name"].s !in reg.actions ==>
                  x == Exchange(ErrorReply(cfg, Unregistered("action", PyRepr(items[0].fields["name"].s))), [], []))
  {
    var items := data["actions"].items;
    if items == [] {
      assert ActionRoute(reg, data) == Failure(NoAction);
    } else if items[0].Obj? && "name" in items[0].fields && items[0].fields["name"].Str?
              && items[0].fields["name"].s !in reg.actions {
      var f := Unregistered("action", PyRepr(items[0].fields["name"].s));
      assert ActionHandler(reg, items[0]) == Failure(f);
      assert ActionRoute(reg, data) == Failure(f);
    }
  }

  /** Whatever fails after the token check, the caller gets a private,
      non-replacing reply under the default name whose text is the
      exception's `repr` with angle brackets removed and nothing else
      changed; no side-channel message is scheduled. */
  lemma FailuresAreSanitized(cfg: Config, f: Fault)
    ensures var r := ErrorReply(cfg, f);
            && IsEnvelope(r, cfg.defaultName, Str(Sanitize(Repr(f))), [], "ephemeral", false)
            && '<' !in r.body["text"].s && '>' !in r.body["text"].s
            && forall c :: !IsBracket(c) ==> multiset(r.body["text"].s)[c] == multiset(Repr(f))[c]
  {
    SanitizeKeepsOthers(Repr(f));
  }
}

=== FILE: errors.dfy ===
/** The failures the dispatcher can meet, the text Python's `repr` gives each
    of them, and the sanitising that the error-wrapping policy applies to that
    text before it is shown to the caller. */
module Errors {
  import opened Text

  /** The exceptions raised on a dispatch path. */
  datatype Fault =
      /** `KeyError(key)`: a payload lacks a field the dispatcher reads. */
    | KeyMissing(key: string)
      /** `AttributeError('No trigger word supplied')`: an empty trigger word
          or command name. */
    | NoTriggerWord
      /** `AttributeError('No action supplied')`: an empty `actions` list. */
    | NoAction
      /** `AttributeError("Unregistered <kind>: <shown>")`, where `shown` is
          `str()` of the `KeyError` the registry lookup raised. */
    | Unregistered(kind: string, shown: string)
      /** `AttributeError('invalid invocation')`: registering a falsy name. */
    | InvalidInvocation
      /** A `TypeError` from a JSON field of the wrong shape; `field` names
          the field. */
    | WrongType(field: string)
      /** Any `Exception` a handler raises, given by its `repr`. */
    | HandlerRaised(repr: string)

  /** A computation that either yields a value or raises a `Fault`. */
  datatype Result<T> = Success(value: T) | Failure(error: Fault)
  {
    predicate IsFailure()
    {
      Failure?
    }

    function PropagateFailure<U>(): Result<U>
      requires Failure?
    {
      Failure(error)
    }

    function Extract(): T
      requires Success?
    {
      value
    }
  }

  /** `repr(e)` of the exception a failure stands for. A `TypeError`'s own
      message is Python's wording and is replaced here by the field name. */
  function Repr(f: Fault): string
  {
    match f
    case KeyMissing(key) => "KeyError(" + PyRepr(key) + ")"
    case NoTriggerWord => "AttributeError(" + PyRepr("No trigger word supplied") + ")"
    case NoAction => "AttributeError(" + PyRepr("No action supplied") + ")"
    case Unregistered(kind, shown) => "AttributeError(" + PyRepr("Unregistered " + kind + ": " + shown) + ")"
    case InvalidInvocation => "AttributeError(" + PyRepr("invalid invocation") + ")"
    case WrongType(field) => "TypeError(" + PyRepr(field) + ")"
    case HandlerRaised(repr) => repr
  }

  predicate IsBracket(c: char)
  {
    c == '<' || c == '>'
  }

  /** `re.sub(r"[\<\>]", "", text)`: every angle bracket removed. */
  function Sanitize(s: string): (r: string)
    ensures |r| <= |s|
    ensures '<' !in r && '>' !in r
  {
    if s == [] then []
    else if IsBracket(s[0]) then Sanitize(s[1..])
    else [s[0]] + Sanitize(s[1..])
  }

  /** Every character other than `<` and `>` is kept, as often as it occurs. */
  lemma {:induction false} SanitizeKeepsOthers(s: string)
    ensures forall c :: !IsBracket(c) ==> multiset(Sanitize(s))[c] == multiset(s)[c]
  {
    if s != [] {
      SanitizeKeepsOthers(s[1..]);
      assert s == [s[0]] + s[1..];
    }
  }

  /** Sanitizing works character by character, so the kept characters stay
      in their original order. */
  lemma {:induction false} SanitizeAppend(a: string, b: string)
    ensures Sanitize(a + b) == Sanitize(a) + Sanitize(b)
    decreases |a|
  {
    if a == [] {
      assert a + b == b;
    } else {
      assert (a + b)[0] == a[0];
      assert (a + b)[1..] == a[1..] + b;
      SanitizeAppend(a[1..], b);
    }
  }

  /** A text without angle brackets passes through unchanged; hence
      sanitizing twice is the same as sanitizing once. */
  lemma {:induction false} SanitizeKeepsPlainText(s: string)
    requires '<' !in s && '>' !in s
    ensures Sanitize(s) == s
  {
    if s != [] {
      assert forall i :: 1 <= i < |s| ==> s[1..][i - 1] == s[i];
      SanitizeKeepsPlainText(s[1..]);
    }
  }

  lemma SanitizeIdempotent(s: string)
    ensures Sanitize(Sanitize(s)) == Sanitize(s)
  {
    SanitizeKeepsPlainText(Sanitize(s));
  }

  /** A handler exception mentioning a script tag reaches the caller with the
      tag's name and without its brackets. */
  lemma SanitizeScriptTag(a: string, c: string)
    requires '<' !in a && '>' !in a && '<' !in c && '>' !in c
    ensures Sanitize(a + "<script>" + c) == a + "script" + c
  {
    var t := "script";
    assert "<script>" == ['<'] + t + ['>'];
    SanitizeTag(a, t, c);
    assert a + (['<'] + t + ['>']) + c == a + "<script>" + c;
  }

  /** A tag `<t>` inside bracket-free text loses exactly its brackets. */
  lemma SanitizeTag(a: string, t: string, c: string)
    requires '<' !in a && '>' !in a && '<' !in t && '>' !in t && '<' !in c && '>' !in c
    ensures Sanitize(a + (['<'] + t + ['>']) + c) == a + t + c
  {
    var open, close := ['<'], ['>'];
    assert Sanitize(open) == [] by { assert open[1..] == []; }
    assert Sanitize(close) == [] by { assert close[1..] == []; }
    SanitizeKeepsPlainText(a);
    SanitizeKeepsPlainText(t);
    SanitizeKeepsPlainText(c);
    SanitizeAppend(open, t);
    SanitizeAppend(open + t, close);
    var m := open + t + close;
    assert Sanitize(m) == t;
    SanitizeAppend(a, m);
    SanitizeAppend(a + m, c);
  }

  /** The `KeyError` text for a field name `repr` need not escape: the name
      in single quotes. */
  lemma ReprKeyMissing(k: string)
    requires '\'' !in k && Verbatim(k, '\'')
    ensures Repr(KeyMissing(k)) == "KeyError('" + k + "')"
  {
    PyReprVerbatim(k);
  }

  /** The text of an unregistered-route error for a name `repr` need not
      escape: the `KeyError`'s single-quoted name inside a message that
      Python therefore puts in double quotes. */
  lemma ReprUnregistered(kind: string, name: string)
    requires '\'' !in name && '"' !in name && Verbatim(name, '"')
    requires '\'' !in kind && '"' !in kind && Verbatim(kind, '"')
    ensures Repr(Unregistered(kind, PyRepr(name)))
            == "AttributeError(\"Unregistered " + kind + ": '" + name + "'\")"
  {
    var prefix, sep, tick := "Unregistered ", ": '", "'";
    var ae, dq, cp := "AttributeError(", "\"", ")";
    UnregisteredMessage(kind, name, prefix, sep, tick, dq);
    assert Repr(Unregistered(kind, PyRepr(name)))
        == ae + (dq + (prefix + kind + sep + name + tick) + dq) + cp;
    assert "AttributeError(\"Unregistered " == ae + dq + prefix;
    assert "'\")" == tick + dq + cp;
    Regroup(ae, dq, prefix, kind, sep, name, tick, cp);
  }

  /** The message of an unregistered-route error, as `repr` writes it. */
  lemma UnregisteredMessage(kind: string, name: string, prefix: string, sep: string, tick: string, dq: string)
    requires '\'' !in name && '"' !in name && Verbatim(name, '"')
    requires '\'' !in kind && '"' !in kind && Verbatim(kind, '"')
    requires prefix == "Unregistered " && sep == ": '" && tick == "'" && dq == "\""
    ensures PyRepr("Unregistered " + kind + ": " + PyRepr(name))
            == dq + (prefix + kind + sep + name + tick) + dq
  {
    assert Verbatim(name, '\'');
    PyReprVerbatim(name);
    UnregisteredPieces(prefix, sep, tick);
    var msg := prefix + kind + sep + name + tick;
    assert "Unregistered " + kind + ": " + PyRepr(name) == msg;
    VerbatimAppend(prefix, kind, '"');
    VerbatimAppend(prefix + kind, sep, '"');
    VerbatimAppend(prefix + kind + sep, name, '"');
    VerbatimAppend(prefix + kind + sep + name, tick, '"');
    assert msg[|msg| - 1] == '\'';
    assert '"' !in msg;
    assert QuoteFor(msg) == '"';
    PyReprVerbatim(msg);
  }

  /** Concatenation regrouped: the quoted message inside the error's
      parentheses, read as one flat text. */
  lemma Regroup<T>(ae: seq<T>, dq: seq<T>, prefix: seq<T>, kind: seq<T>, sep: seq<T>, name: seq<T>, tick: seq<T>, cp: seq<T>)
    ensures ae + (dq + (prefix + kind + sep + name + tick) + dq) + cp
            == ae + dq + prefix + kind + sep + name + (tick + dq + cp)
  {
  }

  /** The fixed parts of an unregistered-route message contain no double
      quote and nothing `repr` escapes. */
  lemma UnregisteredPieces(prefix: string, sep: string, tick: string)
    requires prefix == "Unregistered " && sep == ": '" && tick == "'"
    ensures '"' !in prefix && '"' !in sep && '"' !in tick
    ensures Verbatim(prefix, '"') && Verbatim(sep, '"') && Verbatim(tick, '"')
  {
  }
}

=== FILE: message.dfy ===
/** Message value types: rich attachments and interactive actions, which keep
    only the keyword arguments their class recognises, and the values a
    handler may return. */
module Message {
  import opened Values

  /** Which class an attachment was built from. An `Action` is a subclass of
      `Attachment` with its own key whitelist. */
  datatype Kind = AttachmentKind | ActionKind

  /** The keyword arguments each class keeps. */
  function Keys(kind: Kind): set<string>
  {
    match kind
    case AttachmentKind =>
      {"fallback", "color", "pretext", "author_name", "author_link", "author_icon",
       "title", "title_link", "text", "fields", "image_url", "thumb_url",
       "callback_id", "actions"}
    case ActionKind =>
      {"name", "text", "type", "style", "value", "confirm"}
  }

  datatype RawAttachment = RawAttachment(kind: Kind, fields: map<string, Value>)

  /** An attachment or action as its constructor leaves it: only whitelisted
      keys. */
  type Attachment = a: RawAttachment | a.fields.Keys <= Keys(a.kind)
    witness RawAttachment(AttachmentKind, map[])

  /** `Attachment(**kwargs)` / `Action(**kwargs)`: keeps the supplied keys that
      the class recognises, each with its value unchanged, and nothing else. */
  function Make(kind: Kind, kwargs: map<string, Value>): (a: Attachment)
    ensures a.kind == kind
    ensures a.fields.Keys == kwargs.Keys * Keys(kind)
    ensures forall k :: k in a.fields ==> a.fields[k] == kwargs[k]
  {
    RawAttachment(kind, map k | k in kwargs && k in Keys(kind) :: kwargs[k])
  }

  /** The `as_dict` property: the filtered mapping, never holding a key
      outside the class's whitelist. */
  function AsDict(a: Attachment): (d: map<string, Value>)
    ensures d.Keys <= Keys(a.kind)
  {
    a.fields
  }

  /** Building an object of the same class from an existing `as_dict` gives
      the same mapping. */
  lemma MakeIdempotent(kind: Kind, kwargs: map<string, Value>)
    ensures Make(kind, AsDict(Make(kind, kwargs))) == Make(kind, kwargs)
  {
    var a := Make(kind, kwargs);
    var b := Make(kind, AsDict(a));
    assert b.fields.Keys == a.fields.Keys;
    assert b.fields == a.fields;
  }

  /** `Attachment(color="red", flower="rose", image_url="some-rose.jpg")`
      keeps `color` and `image_url`. */
  lemma AttachmentDropsUnknownKeys()
    ensures AsDict(Make(AttachmentKind, map["color" := Str("red"), "flower" := Str("rose"),
                                            "image_url" := Str("some-rose.jpg")]))
            == map["color" := Str("red"), "image_url" := Str("some-rose.jpg")]
  {
    var kwargs := map["color" := Str("red"), "flower" := Str("rose"), "image_url" := Str("some-rose.jpg")];
    var d := AsDict(Make(AttachmentKind, kwargs));
    assert "flower" !in Keys(AttachmentKind);
    assert d.Keys == {"color", "image_url"};
  }

  /** `Action(name="bob", style="button", color="red")` keeps `name` and
      `style`: `color` is an attachment key, not an action key. */
  lemma ActionUsesOwnWhitelist()
    ensures AsDict(Make(ActionKind, map["name" := Str("bob"), "style" := Str("button"),
                                        "color" := Str("red")]))
            == map["name" := Str("bob"), "style" := Str("button")]
  {
    var kwargs := map["name" := Str("bob"), "style" := Str("button"), "color" := Str("red")];
    var d := AsDict(Make(ActionKind, kwargs));
    assert "color" !in Keys(ActionKind);
    assert d.Keys == {"name", "style"};
  }

  /** A value other than `None`. */
  type NonNull = v: Value | !v.Null? witness Bool(false)

  /** What `IndirectResponse.indirect` carries to the response URL: an
      attachment, or any other value sent as text. */
  datatype Deferred = DeferredAttachment(attachment: Attachment) | DeferredValue(value: Value)

  /** The value a handler returns. */
  datatype HandlerResult =
      /** `None`: no feedback at all. */
    | NoReply
      /** Any other JSON-serialisable value, sent as the reply's text (a
          plain string, usually). `None` is never one: it is `NoReply`. */
    | Plain(value: NonNull)
      /** An `Attachment` (or an `Action`, which is one). */
    | Attach(attachment: Attachment)
      /** `PrivateResponse(feedback)`: shown to the caller only. */
    | Private(feedback: Value)
      /** `IndirectResponse(feedback, indirect)`: `indirect` goes to the
          response URL, `feedback` decides the synchronous reply. */
    | Indirect(feedback: Value, indirect: Deferred)
}

=== FILE: registry.dfy ===
/** The three handler registries: trigger words, slash commands and action
    names, each mapping a routing key to the handler registered under it. */
module Registry {
  import opened Values
  import opened Errors
  import opened Configuration

  /** Handlers are application code the model does not see; it names them. */
  type HandlerId = nat

  /** A trigger word's handler and the display name its replies use. */
  datatype TriggerEntry = TriggerEntry(handler: HandlerId, user: string)

  datatype Registry = Registry(
    triggers: map<string, TriggerEntry>,
    commands: map<string, HandlerId>,
    actions: map<string, HandlerId>)

  /** `trigger(word, as_user=...)` applied to a handler: an empty word is
      rejected; otherwise the entry is stored, replacing any earlier one,
      with the display name defaulting to the configured one. */
  function RegisterTrigger(cfg: Config, reg: Registry, word: string, asUser: Option<string>,
                           handler: HandlerId): (r: Result<Registry>)
    ensures word == "" <==> r.Failure?
    ensures r.Failure? ==> r.error == InvalidInvocation
    ensures r.Success? ==>
              && r.value.triggers.Keys == reg.triggers.Keys + {word}
              && r.value.triggers[word].handler == handler
              && r.value.triggers[word].user == (if asUser.Some? then asUser.value else cfg.defaultName)
              && (forall w :: w in reg.triggers && w != word ==> r.value.triggers[w] == reg.triggers[w])
              && r.value.commands == reg.commands
              && r.value.actions == reg.actions
  {
    if word == "" then Failure(InvalidInvocation)
    else
      var user := if asUser.Some? then asUser.value else cfg.defaultName;
      Success(reg.(triggers := reg.triggers[word := TriggerEntry(handler, user)]))
  }

  /** `command(name)` applied to a handler: an empty name is rejected;
      otherwise the handler is stored, replacing any earlier one. */
  function RegisterCommand(reg: Registry, name: string, handler: HandlerId): (r: Result<Registry>)
    ensures name == "" <==> r.Failure?
    ensures r.Failure? ==> r.error == InvalidInvocation
    ensures r.Success? ==>
              && r.value.commands.Keys == reg.commands.Keys + {name}
              && r.value.commands[name] == handler
              && (forall n :: n in reg.commands && n != name ==> r.value.commands[n] == reg.commands[n])
              && r.value.triggers == reg.triggers
              && r.value.actions == reg.actions
  {
    if name == "" then Failure(InvalidInvocation)
    else Success(reg.(commands := reg.commands[name := handler]))
  }

  /** `action(name)` applied to a handler: an empty name is rejected;
      otherwise the handler is stored, replacing any earlier one. */
  function RegisterAction(reg: Registry, name: string, handler: HandlerId): (r: Result<Registry>)
    ensures name == "" <==> r.Failure?
    ensures r.Failure? ==> r.error == InvalidInvocation
    ensures r.Success? ==>
              && r.value.actions.Keys == reg.actions.Keys + {name}
              && r.value.actions[name] == handler
              && (forall n :: n in reg.actions && n != name ==> r.value.actions[n] == reg.actions[n])
              && r.value.triggers == reg.triggers
              && r.value.commands == reg.commands
  {
    if name == "" then Failure(InvalidInvocation)
    else Success(reg.(actions := reg.actions[name := handler]))
  }

  /** Re-registering a key overwrites: two registrations under one key leave
      the same registry as the last one alone. */
  lemma LastRegistrationWins(cfg: Config, reg: Registry, key: string, u1: Option<string>,
                             u2: Option<string>, h1: HandlerId, h2: HandlerId)
    requires key != ""
    ensures RegisterTrigger(cfg, RegisterTrigger(cfg, reg, key, u1, h1).value, key, u2, h2)
            == RegisterTrigger(cfg, reg, key, u2, h2)
    ensures RegisterCommand(RegisterCommand(reg, key, h1).value, key, h2) == RegisterCommand(reg, key, h2)
    ensures RegisterAction(RegisterAction(reg, key, h1).value, key, h2) == RegisterAction(reg, key, h2)
  {
    var t1 := RegisterTrigger(cfg, reg, key, u1, h1).value;
    var t2 := RegisterTrigger(cfg, t1, key, u2, h2).value;
    var t3 := RegisterTrigger(cfg, reg, key, u2, h2).value;
    assert t2.triggers == t3.triggers;
    var c1 := RegisterCommand(reg, key, h1).value;
    assert RegisterCommand(c1, key, h2).value.commands == RegisterCommand(reg, key, h2).value.commands;
    var a1 := RegisterAction(reg, key, h1).value;
    assert RegisterAction(a1, key, h2).value.actions == RegisterAction(reg, key, h2).value.actions;
  }
}

=== FILE: response.dfy ===
/** The response encoder: turns a handler's return value into the synchronous
    reply and the messages meant for the response URL, and classifies the
    status of such a post. Posting itself is left to the caller, and the
    encoder returns an outbox instead. The outbox follows the intended delivery:
    as written, the worker that should post is handed too few arguments and
    never sends anything. */
module Response {
  import opened Values
  import opened Message
  import opened Configuration

  /** The HTTP body of a reply: empty, or a JSON object. */
  datatype Reply = Empty | Json(body: map<string, Value>)

  /** A message scheduled for the response URL. */
  datatype Outgoing = Outgoing(url: Value, body: map<string, Value>)

  /** The synchronous reply together with the scheduled side-channel
      messages, in submission order. */
  datatype Encoded = Encoded(reply: Reply, outbox: seq<Outgoing>)

  /** The keys of a full reply envelope. */
  const EnvelopeKeys: set<string> :=
    {"username", "text", "attachments", "response_type", "replace_original"}

  /** `user or FLACK_DEFAULT_NAME`: a missing or empty name falls back to the
      configured default. */
  function DisplayName(cfg: Config, user: Option<string>): string
  {
    if user.Some? && user.value != "" then user.value else cfg.defaultName
  }

  function Visibility(private: bool): string
  {
    if private then "ephemeral" else "in_channel"
  }

  function Envelope(name: string, text: Value, attachments: seq<Value>, responseType: string,
                    replace: bool): map<string, Value>
  {
    map["username" := Str(name), "text" := text, "attachments" := List(attachments),
        "response_type" := Str(responseType), "replace_original" := Bool(replace)]
  }

  /** `r` is a full envelope with exactly these field values. */
  predicate IsEnvelope(r: Reply, name: string, text: Value, attachments: seq<Value>,
                       responseType: string, replace: bool)
  {
    && r.Json?
    && r.body.Keys == EnvelopeKeys
    && r.body["username"] == Str(name)
    && r.body["text"] == text
    && r.body["attachments"] == List(attachments)
    && r.body["response_type"] == Str(responseType)
    && r.body["replace_original"] == Bool(replace)
  }

  /** The reply that only echoes the caller's input to the channel. */
  const EchoReply: Reply := Json(map["response_type" := Str("in_channel")])

  /** `_indirect_response`: the side-channel message for `indirect`, always
      public, carrying an attachment as the single attachment with empty
      text, and anything else as the text with no attachments. */
  function IndirectMessage(indirect: Deferred, url: Value): (m: Outgoing)
    ensures m.url == url
    ensures m.body.Keys == {"text", "attachments", "response_type"}
    ensures m.body["response_type"] == Str("in_channel")
    ensures indirect.DeferredAttachment? ==>
              m.body["text"] == Str("") && m.body["attachments"] == List([Obj(AsDict(indirect.attachment))])
    ensures indirect.DeferredValue? ==>
              m.body["text"] == indirect.value && m.body["attachments"] == List([])
  {
    var body := map["text" := Str(""), "attachments" := List([]), "response_type" := Str("in_channel")];
    match indirect
    case DeferredAttachment(a) => Outgoing(url, body["attachments" := List([Obj(AsDict(a))])])
    case DeferredValue(v) => Outgoing(url, body["text" := v])
  }

  /** `_response`: the reply to the request and the side-channel messages
      for a handler's return value. An `IndirectResponse` schedules its one
      message whatever its feedback is; only then is the reply decided. */
  function Encode(cfg: Config, result: HandlerResult, url: Value, user: Option<string>,
                  private: bool, replace: bool): (e: Encoded)
    ensures result.Indirect? ==> e.outbox == [IndirectMessage(result.indirect, url)]
    ensures !result.Indirect? ==> e.outbox == []
    ensures e.reply.Empty? <==> result.NoReply? || (result.Indirect? && !Truthy(result.feedback))
    ensures result.Plain? ==>
              IsEnvelope(e.reply, DisplayName(cfg, user), result.value, [], Visibility(private), replace)
    ensures result.Attach? ==>
              IsEnvelope(e.reply, DisplayName(cfg, user), Str(""), [Obj(AsDict(result.attachment))],
                         Visibility(private), replace)
    ensures result.Private? ==>
              IsEnvelope(e.reply, DisplayName(cfg, user), result.feedback, [], "ephemeral", replace)
    ensures result.Indirect? && result.feedback == Bool(true) ==> e.reply == EchoReply
    ensures result.Indirect? && Truthy(result.feedback) && result.feedback != Bool(true) ==>
              IsEnvelope(e.reply, DisplayName(cfg, user), result.feedback, [], "ephemeral", replace)
  {
    var base := Envelope(DisplayName(cfg, user), Str(""), [], Visibility(private), replace);
    match result
    case NoReply => Encoded(Empty, [])
    case Attach(a) => Encoded(Json(base["attachments" := List([Obj(AsDict(a))])]), [])
    case Indirect(feedback, indirect) =>
      var outbox := [IndirectMessage(indirect, url)];
      if !Truthy(feedback) then Encoded(Empty, outbox)
      else if feedback == Bool(true) then Encoded(EchoReply, outbox)
      else Encoded(Json(base["text" := feedback]["response_type" := Str("ephemeral")]), outbox)
    case Private(feedback) =>
      Encoded(Json(base["text" := feedback]["response_type" := Str("ephemeral")]), [])
    case Plain(v) => Encoded(Json(base["text" := v]), [])
  }

  /** Every non-empty reply is either a full envelope or the bare echo
      acknowledgement, and the echo comes only from an `IndirectResponse`
      whose feedback is `True`. */
  lemma ReplyShape(cfg: Config, result: HandlerResult, url: Value, user: Option<string>,
                   private: bool, replace: bool)
    ensures var r := Encode(cfg, result, url, user, private, replace).reply;
            r.Empty? || (r.Json? && r.body.Keys == EnvelopeKeys) || r == EchoReply
    ensures Encode(cfg, result, url, user, private, replace).reply == EchoReply <==>
              result.Indirect? && result.feedback == Bool(true)
  {
    var r := Encode(cfg, result, url, user, private, replace).reply;
    assert "username" !in EchoReply.body;
    if result.Indirect? && result.feedback == Bool(true) {
      assert r == EchoReply;
    }
  }

  /** The reply is private exactly when the caller asked for a private reply
      to a plain value or an attachment, or when the handler returned a
      `PrivateResponse`, or an `IndirectResponse` with feedback other than
      `True`. */
  lemma ReplyVisibility(cfg: Config, result: HandlerResult, url: Value, user: Option<string>,
                        private: bool, replace: bool)
    requires Encode(cfg, result, url, user, private, replace).reply.Json?
    ensures var body := Encode(cfg, result, url, user, private, replace).reply.body;
            "response_type" in body
            && (body["response_type"] == Str("ephemeral") <==>
                  || (private && (result.Plain? || result.Attach?))
                  || result.Private?
                  || (result.Indirect? && result.feedback != Bool(true)))
  {
    ReplyShape(cfg, result, url, user, private, replace);
  }

  /** The side channel and the synchronous reply of an `IndirectResponse`
      are independent: the message submitted depends only on `indirect` and the
      URL, the reply only on `feedback` and the call-site options. */
  lemma IndirectIndependence(cfg: Config, f1: Value, f2: Value, d1: Deferred, d2: Deferred,
                             url1: Value, url2: Value, user: Option<string>,
                             private: bool, replace: bool)
    ensures Encode(cfg, Indirect(f1, d1), url1, user, private, replace).outbox
            == Encode(cfg, Indirect(f2, d1), url1, None, !private, !replace).outbox
    ensures Encode(cfg, Indirect(f1, d1), url1, user, private, replace).reply
            == Encode(cfg, Indirect(f1, d2), url2, user, private, replace).reply
  {
  }

  /** The verdict `_send_message` is written to give on the response URL's
      status: a 404 means the single-use URL has expired and the message is
      dropped; any other status counts as delivered. As written, the worker
      fails on its arguments before posting, so no status is ever judged. */
  function Delivered(status: int): (ok: bool)
    ensures !ok <==> status == 404
  {
    status != 404
  }
}

=== FILE: text.dfy ===
/** The pieces of Python's `str` behaviour the dispatcher relies on: slicing
    past the end, `strip()` with no arguments, and `repr()` of a string (which
    is where exception messages get their quotes). */
module Text {

  /** Python's `str.isspace` for one character: the C0 separators, space,
      NEL, no-break space and the Unicode space separators. */
  predicate IsSpace(c: char)
  {
    var n := c as int;
    (0x09 <= n <= 0x0D) || (0x1C <= n <= 0x20) || n == 0x85 || n == 0xA0
    || n == 0x1680 || (0x2000 <= n <= 0x200A) || n == 0x2028 || n == 0x2029
    || n == 0x202F || n == 0x205F || n == 0x3000
  }

  ghost predicate AllSpace(s: string)
  {
    forall i :: 0 <= i < |s| ==> IsSpace(s[i])
  }

  /** `s[n:]` for a non-negative `n`: Python clamps an index past the end. */
  function Drop(s: string, n: nat): (r: string)
    ensures n <= |s| ==> s == s[..n] + r
    ensures n >= |s| ==> r == []
  {
    if n <= |s| then s[n..] else []
  }

  /** `lstrip()`: removes the longest all-whitespace prefix. */
  function LStrip(s: string): (r: string)
    ensures |r| <= |s| && r == s[|s| - |r|..]
    ensures forall i :: 0 <= i < |s| - |r| ==> IsSpace(s[i])
    ensures r == [] || !IsSpace(r[0])
    decreases |s|
  {
    if |s| > 0 && IsSpace(s[0]) then LStrip(s[1..]) else s
  }

  /** `rstrip()`: removes the longest all-whitespace suffix. */
  function RStrip(s: string): (r: string)
    ensures |r| <= |s| && r == s[..|r|]
    ensures forall i :: |r| <= i < |s| ==> IsSpace(s[i])
    ensures r == [] || !IsSpace(r[|r| - 1])
    decreases |s|
  {
    if |s| > 0 && IsSpace(s[|s| - 1]) then RStrip(s[..|s| - 1]) else s
  }

  /** `strip()`: the text between the surrounding whitespace. */
  function Strip(s: string): (r: string)
    ensures r == [] || (!IsSpace(r[0]) && !IsSpace(r[|r| - 1]))
    ensures r == [] <==> AllSpace(s)
  {
    var t := RStrip(s);
    assert AllSpace(s) ==> t == [];
    LStrip(t)
  }

  lemma {:induction false} LStripSpacePrefix(p: string, t: string)
    requires AllSpace(p)
    ensures LStrip(p + t) == LStrip(t)
    decreases |p|
  {
    if p != [] {
      assert (p + t)[0] == p[0];
      assert (p + t)[1..] == p[1..] + t;
      assert LStrip(p + t) == LStrip((p + t)[1..]);
      assert AllSpace(p[1..]) by {
        forall i | 0 <= i < |p[1..]| ensures IsSpace(p[1..][i]) {
          assert p[1..][i] == p[i + 1];
        }
      }
      LStripSpacePrefix(p[1..], t);
    } else {
      assert p + t == t;
    }
  }

  lemma {:induction false} RStripSpaceSuffix(t: string, q: string)
    requires AllSpace(q)
    ensures RStrip(t + q) == RStrip(t)
    decreases |q|
  {
    if q != [] {
      assert (t + q)[|t + q| - 1] == q[|q| - 1];
      assert (t + q)[..|t + q| - 1] == t + q[..|q| - 1];
      assert RStrip(t + q) == RStrip((t + q)[..|t + q| - 1]);
      assert AllSpace(q[..|q| - 1]) by {
        var q' := q[..|q| - 1];
        forall i | 0 <= i < |q'| ensures IsSpace(q'[i]) {
          assert q'[i] == q[i];
        }
      }
      RStripSpaceSuffix(t, q[..|q| - 1]);
    } else {
      assert t + q == t;
    }
  }

  lemma AllSpaceRStrip(s: string)
    requires AllSpace(s)
    ensures RStrip(s) == []
  {
  }

  lemma {:induction false} StripSpacePrefix(p: string, t: string)
    requires AllSpace(p)
    ensures LStrip(RStrip(p + t)) == LStrip(RStrip(t))
    decreases |t|
  {
    if t == [] {
      assert p + t == p;
      AllSpaceRStrip(p);
    } else if IsSpace(t[|t| - 1]) {
      var u := p + t;
      assert u[|u| - 1] == t[|t| - 1];
      assert RStrip(u) == RStrip(u[..|u| - 1]);
      assert RStrip(t) == RStrip(t[..|t| - 1]);
      assert u[..|u| - 1] == p + t[..|t| - 1];
      StripSpacePrefix(p, t[..|t| - 1]);
    } else {
      var u := p + t;
      assert u[|u| - 1] == t[|t| - 1];
      assert RStrip(u) == u;
      assert RStrip(t) == t;
      LStripSpacePrefix(p, t);
    }
  }

  /** Whitespace around a text never reaches the stripped result. */
  lemma StripIgnoresPadding(p: string, s: string, q: string)
    requires AllSpace(p) && AllSpace(q)
    ensures Strip(p + s + q) == Strip(s)
  {
    RStripSpaceSuffix(p + s, q);
    StripSpacePrefix(p, s);
  }

  /** A text without surrounding whitespace is its own strip; so `strip` is
      idempotent. */
  lemma StripIdempotent(s: string)
    ensures Strip(Strip(s)) == Strip(s)
    ensures s == [] || (!IsSpace(s[0]) && !IsSpace(s[|s| - 1])) ==> Strip(s) == s
  {
  }

  // ---------------------------------------------------------------------
  // repr() of a str

  /** Python quotes with `"` only when the text has a `'` and no `"`. */
  function QuoteFor(s: string): char
  {
    if '\'' in s && '"' !in s then '"' else '\''
  }

  /** Characters `repr` writes as `\xNN`: the C0 controls other than tab,
      newline and carriage return, DEL, the C1 controls, no-break space and
      the soft hyphen. Non-printable characters above U+00FF are not
      modelled. */
  predicate HexEscaped(c: char)
  {
    var n := c as int;
    n < 0x20 || (0x7F <= n <= 0xA0) || n == 0xAD
  }

  function HexDigit(d: nat): char
    requires d < 16
  {
    "0123456789abcdef"[d]
  }

  function HexValue(h: char): nat
  {
    if '0' <= h <= '9' then h as int - '0' as int
    else if 'a' <= h <= 'f' then h as int - 'a' as int + 10
    else 0
  }

  function EscapeChar(c: char, q: char): (r: string)
    ensures |r| >= 1
  {
    if c == '\\' then "\\\\"
    else if c == '\n' then "\\n"
    else if c == '\r' then "\\r"
    else if c == '\t' then "\\t"
    else if c == q then ['\\', q]
    else if HexEscaped(c) then ['\\', 'x', HexDigit(c as int / 16), HexDigit(c as int % 16)]
    else [c]
  }

  function Escape(s: string, q: char): string
  {
    if s == [] then [] else EscapeChar(s[0], q) + Escape(s[1..], q)
  }

  /** `repr(s)` for a Python `str`. */
  function PyRepr(s: string): (r: string)
    ensures |r| >= 2 && r[0] == QuoteFor(s) && r[|r| - 1] == QuoteFor(s)
  {
    [QuoteFor(s)] + Escape(s, QuoteFor(s)) + [QuoteFor(s)]
  }

  /** Reads a Python string literal body back: the inverse of `Escape`. */
  function Unescape(t: string): string
  {
    if t == [] then []
    else if t[0] == '\\' && |t| >= 4 && t[1] == 'x' then
      [(HexValue(t[2]) * 16 + HexValue(t[3])) as char] + Unescape(t[4..])
    else if t[0] == '\\' && |t| >= 2 then
      [if t[1] == 'n' then '\n' else if t[1] == 'r' then '\r' else if t[1] == 't' then '\t' else t[1]]
      + Unescape(t[2..])
    else [t[0]] + Unescape(t[1..])
  }

  /** Reads a `repr` back: drops the quotes and undoes the escapes. */
  function Unquote(r: string): string
  {
    if |r| < 2 then [] else Unescape(r[1..|r| - 1])
  }

  lemma HexRoundTrip(d: nat)
    requires d < 16
    ensures HexValue(HexDigit(d)) == d
  {
  }

  lemma UnescapeChar(c: char, q: char, rest: string)
    requires q == '\'' || q == '"'
    ensures Unescape(EscapeChar(c, q) + rest) == [c] + Unescape(rest)
  {
    var e := EscapeChar(c, q);
    if c == '\\' || c == '\n' || c == '\r' || c == '\t' || c == q {
      assert (e + rest)[2..] == rest;
    } else if HexEscaped(c) {
      var n := c as int;
      HexRoundTrip(n / 16);
      HexRoundTrip(n % 16);
      assert (e + rest)[4..] == rest;
      assert (HexValue(e[2]) * 16 + HexValue(e[3])) == n;
    } else {
      assert e == [c];
      assert (e + rest)[1..] == rest;
    }
  }

  lemma {:induction false} UnescapeEscape(s: string, q: char)
    requires q == '\'' || q == '"'
    ensures Unescape(Escape(s, q)) == s
  {
    if s != [] {
      UnescapeEscape(s[1..], q);
      UnescapeChar(s[0], q, Escape(s[1..], q));
    }
  }

  /** `repr` loses nothing: reading it back gives the original text. */
  lemma ReprRoundTrip(s: string)
    ensures Unquote(PyRepr(s)) == s
  {
    var q := QuoteFor(s);
    var r := PyRepr(s);
    assert r[1..|r| - 1] == Escape(s, q);
    UnescapeEscape(s, q);
  }

  /** `s` contains nothing `repr` escapes inside quotes `q`. */
  ghost predicate Verbatim(s: string, q: char)
  {
    forall i :: 0 <= i < |s| ==>
      s[i] != '\\' && s[i] != '\n' && s[i] != '\r' && s[i] != '\t' && s[i] != q && !HexEscaped(s[i])
  }

  lemma {:induction false} EscapeVerbatim(s: string, q: char)
    requires Verbatim(s, q)
    ensures Escape(s, q) == s
  {
    if s != [] {
      assert Verbatim(s[1..], q) by {
        forall i | 0 <= i < |s[1..]| ensures s[1..][i] == s[i + 1] { }
      }
      EscapeVerbatim(s[1..], q);
      assert EscapeChar(s[0], q) == [s[0]];
    }
  }

  lemma VerbatimAppend(a: string, b: string, q: char)
    requires Verbatim(a, q) && Verbatim(b, q)
    ensures Verbatim(a + b, q)
  {
    forall i | 0 <= i < |a + b|
      ensures (a + b)[i] == (if i < |a| then a[i] else b[i - |a|])
    {
    }
  }

  /** A text `repr` need not escape is written verbatim between the quotes
      Python picks: single quotes unless the text has a single quote and no
      double quote. */
  lemma PyReprVerbatim(s: string)
    requires Verbatim(s, QuoteFor(s))
    ensures '\'' !in s ==> PyRepr(s) == "'" + s + "'"
    ensures '\'' in s && '"' !in s ==> PyRepr(s) == "\"" + s + "\""
  {
    EscapeVerbatim(s, QuoteFor(s));
  }

  // ---------------------------------------------------------------------
  // repr() of an int

  function DigitChar(d: nat): char
    requires d < 10
  {
    "0123456789"[d]
  }

  function NatToString(n: nat): (r: string)
    ensures |r| >= 1
    ensures forall i :: 0 <= i < |r| ==> '0' <= r[i] <= '9'
  {
    if n < 10 then [DigitChar(n)] else NatToString(n / 10) + [DigitChar(n % 10)]
  }

  /** `repr(n)` for a Python `int`: decimal digits with a leading `-` when
      negative. */
  function IntToString(n: int): string
  {
    if n < 0 then "-" + NatToString(-n) else NatToString(n)
  }
}

=== FILE: values.dfy ===
/** Values carried by payloads, attachments and replies: the JSON subset that
    the chat platform sends and that the reply envelope is serialised to. */
module Values {

  /** An optional value, used for Python arguments that default to `None`. */
  datatype Option<T> = None | Some(value: T)

  /** A decoded JSON value. Floating-point numbers are not modelled. */
  datatype Value =
    | Null
    | Bool(b: bool)
    | Num(n: int)
    | Str(s: string)
    | List(items: seq<Value>)
    | Obj(fields: map<string, Value>)

  /** Python truthiness: `None`, `False`, `0` and empty strings, lists and
      dicts are falsy, everything else is truthy. */
  predicate Truthy(v: Value)
  {
    match v
    case Null => false
    case Bool(b) => b
    case Num(n) => n != 0
    case Str(s) => |s| > 0
    case List(items) => |items| > 0
    case Obj(fields) => |fields| > 0
  }
}
